=== FILE: README.md ===
# Reference-counted page allocator and copy-on-write fault handler

A Dafny model of the physical page allocator of a small RISC-V teaching
kernel (`kernel/kalloc.c`), together with the few process-record system calls
of `kernel/sysproc.c` that set scheduling priority, lottery tickets, the
syscall-tracing mask and the CPU-time alarm.

The allocator keeps a LIFO free list of 4096-byte frames and a table of
signed per-frame reference counts. `kfree` decrements a frame's count and
puts the frame on the list only when the count is no longer positive.
`kalloc` pops the head of the list and gives it a count of 1.
`addReference` adds a holder. On a write fault against a copy-on-write
mapping, `pagefhandler` calls `copyndecref`. A sole owner keeps its frame.
A shared frame loses one reference and is copied into a fresh frame. Either
way the page is then remapped writable, with the copy-on-write marker
cleared.

Files and modules:

- `riscv.dfy` (`Riscv`): page size, `PGROUNDUP`/`PGROUNDDOWN`, entry flags as
  booleans, and the page table as a map from page-aligned virtual address to
  entry.
- `kalloc.dfy` (`Kalloc`): the layout, the allocator state `Mem` (free list,
  count table, frame contents) and `Outcome` (`Ok` or `Panic`). It also holds
  `KFree`, `KAlloc`, `AddReference`, `Pages`, `FreePages`, `FreeRange` and
  `KInit`.
- `cow.dfy` (`Cow`): `CopyNDecRef` and `PageFHandler`.
- `kalloc_invariant.dfy` (`KallocInvariant`): the free-list invariant, which
  operations keep it, and round trips between the operations.
- `kalloc_scenarios.dfy` (`KallocScenarios`): concrete runs on a machine with
  three frames, including the double free the source lets through.
- `sysproc.dfy` (`SysProc`): `Trace`, `SigAlarm`, `SigReturn`, `SetTickets` and
  `SetPriority` over process records, and the record invariant `ProcOk`
  (alarm interval not negative, at least one ticket) that their validations
  keep.

Modelling choices:

- `panic` is the `Panic` outcome. It carries no state, because the kernel
  stops there.
- The linker symbol `end`, `PHYSTOP`, `MAXVA`, `PA2REF` and `MAXREF` are
  fields of a `Layout` record. `pa2ref` is an arbitrary function. The
  operations place no requirement on it. Lemmas, and the parts of the
  `freerange` and `kinit` contracts, that need what the headers guarantee
  assume `LayoutOk`: every address `kfree` accepts has its own
  in-range slot, and `end` is above 0.
- The count table is a `map<int, int>`. A missing slot reads 0, as in the
  statically zeroed C array.
- Frame contents are opaque `Page` values. `kfree` writes `Junk(1)`, `kalloc`
  writes `Junk(69)`, and `copyndecref` copies the value.
- `walk`, `uvmunmap` and `mappages` are map lookup, removal and insertion.
  Whether `mappages` succeeds is the parameter `mapOk`; a failure is the
  panic of the fault handler.

Three behaviours of the code differ from what a reference-counted allocator
is usually expected to do. The model keeps them as written:

- Counts go negative. After `kinit` every free frame has count -1. The
  invariant that holds is "on the free list exactly when the count is at
  most 0", not "exactly when the count is 0". Its two halves are `Inv`
  (listed implies count at most 0) and `NoLostFrame` (a frame kfree
  accepts, wholly below PHYSTOP, at count at most 0 is listed).
- A double free is not detected. Freeing a frame that is already free
  succeeds, so two allocations can return the same frame
  (`KallocScenarios.DoubleFreeHandsOutTwice`). The model lists the frame a
  second time at the head. In the source, `kfree` writes the list link into
  the frame itself, so the second free overwrites the frame's old link. The
  list becomes a cycle, or a self-loop when the frame was the head. Frames
  after it become unreachable, and the chain ends at the junk `kalloc`
  writes into a frame it hands out.
- When `copyndecref` finds no free frame, the decrement it already made is
  kept (`KallocInvariant.FailedCopyLeaksReference`).

## Model

| member | source | states |
|---|---|---|
| `Riscv.PgRoundUp` | kernel/kalloc.c:43 | the result is page aligned and is the least such address at or above the input |
| `Riscv.PgRoundDown` | kernel/kalloc.c:153 | the result is page aligned, at most the input, and within one page of it |
| `Riscv.MakeWritable` | kernel/kalloc.c:152 | the new flags are writable and not copy-on-write; V, R, X and U are kept |
| `Kalloc.KFree` | kernel/kalloc.c:53-78 | panics exactly when the address is misaligned, below `end` or at/above PHYSTOP; otherwise decrements only that frame's count by one; keeps the list if the new count is positive, else prepends the frame and changes no other frame's content |
| `Kalloc.KAlloc` | kernel/kalloc.c:83-99 | empty list: returns 0 and changes nothing; otherwise returns the former head, removes only it, sets its count to exactly 1, and leaves every other count and every other frame's content alone |
| `Kalloc.AddReference` | kernel/kalloc.c:101-108 | an out-of-range slot leaves the state unchanged; otherwise only that slot's count grows by exactly one |
| `Kalloc.Pages` | kernel/kalloc.c:43-44 | the k-th page freerange visits is `PGROUNDUP(start) + k*PGSIZE`, every visited page fits below `pa_end`, and the next one would not |
| `Kalloc.FreePages` | kernel/kalloc.c:44-46 | the loop panics iff some page it visits fails kfree's address check |
| `Kalloc.FreePagesPushesAll` | kernel/kalloc.c:44-46 | over acceptable pages holding at most one reference, the loop pushes every page in ascending order, so the list is the reversed page sequence ahead of the old list |
| `Kalloc.FreePagesCounts` | kernel/kalloc.c:44-46 | the loop lowers the count of each visited page's slot by exactly one and leaves all other slots alone |
| `Kalloc.FreeRange` | kernel/kalloc.c:39-47 | freerange panics iff some page from PGROUNDUP(start) fails kfree's check; with a well-formed layout and every page acceptable and at count at most 1, it succeeds, the list is those pages highest first ahead of the old list, each visited slot drops by one and no other slot changes |
| `Kalloc.KInit` | kernel/kalloc.c:31-37 | kinit never panics; with a well-formed layout the free list holds every page from PGROUNDUP(end) below PHYSTOP, highest first, each acceptable to kfree and at count -1 |
| `KallocInvariant.KInitEstablishesInv` | kernel/kalloc.c:31-47 | with a well-formed layout the free-list invariant holds after kinit |
| `KallocInvariant.KFreeKeepsInv` | kernel/kalloc.c:62-75 | kfree of a frame that is not already listed keeps "listed frames are acceptable, have count at most 0 and are listed once" |
| `KallocInvariant.KAllocKeepsInv` | kernel/kalloc.c:88-97 | kalloc keeps the invariant, returns 0 iff the list is empty, and the returned frame is no longer listed |
| `KallocInvariant.KAllocTwiceDistinct` | kernel/kalloc.c:88-96 | under the invariant and on a non-empty list, two successive kallocs return different frames (the second may return 0) |
| `KallocInvariant.AddReferenceKeepsInv` | kernel/kalloc.c:101-107 | addReference on a frame whose count is not 0 keeps the invariant |
| `KallocInvariant.AllocThenFree` | kernel/kalloc.c:62-96 | kalloc then kfree of the returned frame restores the free list, leaves the frame's count at 0 and every other count as it was |
| `KallocInvariant.AddReferenceThenFree` | kernel/kalloc.c:101-107 | addReference then kfree of a frame in use restores every count and leaves the list and contents alone |
| `Cow.CopyNDecRef` | kernel/kalloc.c:111-132 | out-of-range slot returns 0 and changes nothing; count at most 1 returns the same frame and changes nothing; otherwise the result is 0 with the decrement kept (empty list), or the former list head at count 1, and when that head is another frame (with another slot) it holds a copy of the original's content and the original's count has dropped by one |
| `KallocInvariant.CopyNDecRefKeepsInv` | kernel/kalloc.c:116-131 | copyndecref keeps the invariant; on the shared path with a free frame the copy is non-zero and differs from the original, the original loses exactly one reference, the copy has count 1 and the original's content |
| `Cow.PageFHandler` | kernel/kalloc.c:134-159 | returns -1 with nothing changed for va 0, va at/above MAXVA, no entry, or V/U/COW clear; returns -1 keeping copyndecref's state when it yields 0; otherwise panics iff mappages fails, and on success maps the page to the resolved frame with W set, COW cleared and the other bits kept and leaves every other page's entry alone |
| `KallocInvariant.PageFHandlerKeepsInv` | kernel/kalloc.c:146-156 | a handled fault keeps the allocator invariant, and keeps "no entry is both copy-on-write and writable" |
| `KallocInvariant.FreeIffUnreferenced` | kernel/kalloc.c:62-97 | under both invariants, a frame kfree accepts that fits below PHYSTOP is on the free list iff its count is at most 0 |
| `KallocInvariant.KInitNoLostFrame` | kernel/kalloc.c:31-47 | with a well-formed layout, after kinit every such frame at count at most 0 is on the free list |
| `KallocInvariant.KFreeNoLostFrame` | kernel/kalloc.c:62-75 | kfree keeps "no unreferenced frame is off the list", even on a double free |
| `KallocInvariant.KAllocNoLostFrame` | kernel/kalloc.c:88-97 | under the free-list invariant kalloc keeps "no unreferenced frame is off the list" |
| `KallocInvariant.AddReferenceNoLostFrame` | kernel/kalloc.c:101-107 | addReference keeps "no unreferenced frame is off the list" |
| `KallocInvariant.CopyNDecRefNoLostFrame` | kernel/kalloc.c:116-131 | under the free-list invariant copyndecref keeps "no unreferenced frame is off the list" |
| `KallocInvariant.PageFHandlerNoLostFrame` | kernel/kalloc.c:134-159 | under the free-list invariant a handled fault keeps "no unreferenced frame is off the list" |
| `KallocInvariant.SoleOwnerFault` | kernel/kalloc.c:117-119 | with count at most 1 the fault allocates nothing, changes no count, and remaps the page to the same frame, writable and not copy-on-write |
| `KallocInvariant.SharedFaultThenPeer` | kernel/kalloc.c:121-131 | a frame shared by two address spaces at count 2: the first fault gives a distinct frame with the same content and drops the count to 1; the second space's fault then keeps the original frame |
| `KallocInvariant.FailedCopyLeaksReference` | kernel/kalloc.c:122-127 | when the shared path finds no free frame the fault returns -1 with the page table unchanged, yet the frame's count has dropped by one |
| `KallocScenarios.KInitThreeFrames` | kernel/kalloc.c:31-47 | on a three-frame machine kinit lists the frames highest first, each at count -1 |
| `KallocScenarios.AllocateAllThenFreeOne` | kernel/kalloc.c:83-98 | three allocations return three distinct non-zero frames, the fourth returns 0, and freeing one leaves a list of length 1 |
| `KallocScenarios.DoubleFreeHandsOutTwice` | kernel/kalloc.c:62-75 | freeing the tail frame of the free list again succeeds and drives its count to -2, and the first and fourth later allocations both return that frame (in the model's list it appears twice; the source's linked chain turns into a cycle through it, which gives the same four allocations) |
| `SysProc.Trace` | kernel/sysproc.c:93-101 | returns 0 and sets the mask; no other field changes |
| `SysProc.SigAlarm` | kernel/sysproc.c:103-119 | returns -1 with nothing changed iff the tick count is negative; otherwise returns 0 having stored the ticks and the handler; no other field changes |
| `SysProc.SigReturn` | kernel/sysproc.c:121-131 | restores the saved trapframe, sets cputicks to the passed ticks, zeroes the passed ticks, returns the restored a0; nothing else changes |
| `SysProc.SigReturnTwice` | kernel/sysproc.c:127-130 | a second sigreturn leaves the alarm interval at 0 and returns the same a0 |
| `SysProc.SetTickets` | kernel/sysproc.c:133-143 | returns -1 with nothing changed iff the count is not positive; otherwise returns 0 with tickets set; nothing else changes |
| `SysProc.SetTicketsIdempotent` | kernel/sysproc.c:138-142 | repeating a valid settickets changes nothing |
| `SysProc.Reprioritise` | kernel/sysproc.c:157-162 | SP and DP become the priority, sleep and run time become 0, no other field changes |
| `SysProc.ScanProcs` | kernel/sysproc.c:154-167 | every matching slot is reprioritised and no other slot changes; the code is the carried value when nothing matches; a reschedule is requested iff one was carried in or some match had a DP above the new priority |
| `SysProc.ScanProcsCode` | kernel/sysproc.c:154-157 | when some slot matches, the code of the scan is the old SP of the last matching slot |
| `SysProc.SetPriority` | kernel/sysproc.c:145-171 | a negative pid or a priority outside 0..100 returns -1 with no change; otherwise matches are reprioritised, others untouched, the code is the last match's old SP or -1, and a reschedule is requested iff some match's DP drops |
| `SysProc.ScanProcsTwice` | kernel/sysproc.c:154-167 | rescanning the table a scan produced rewrites no slot, requests no reschedule, and the first scan kept every pid |
| `SysProc.SetPriorityIdempotent` | kernel/sysproc.c:151-170 | a second identical set_priority leaves the table unchanged, requests no reschedule, and returns the new priority when some process matched |
| `SysProc.LastMatch` | kernel/sysproc.c:145-171 | when some slot matches, it returns the last matching slot, and for a valid call set_priority's code is that slot's old SP |
| `SysProc.TraceKeepsProcOk` | kernel/sysproc.c:93-101 | trace keeps `ProcOk` and does not establish it |
| `SysProc.ReprioritiseKeepsProcOk` | kernel/sysproc.c:157-162 | set_priority's per-process rewrite keeps `ProcOk` and does not establish it |
| `SysProc.SigAlarmKeepsProcOk` | kernel/sysproc.c:103-119 | sigalarm keeps `ProcOk` whether it refuses or accepts the interval |
| `SysProc.SetTicketsKeepsProcOk` | kernel/sysproc.c:133-143 | settickets keeps `ProcOk` whether it refuses or accepts the count |
| `SysProc.SigReturnProcOk` | kernel/sysproc.c:121-131 | from a `ProcOk` process, sigreturn keeps `ProcOk` iff the passed ticks are not negative |
| `SysProc.SetPriorityKeepsProcOk` | kernel/sysproc.c:145-171 | set_priority keeps `ProcOk` on every slot of the table |
| `SysProc.TraceLastWins` | kernel/sysproc.c:93-101 | two traces in a row act as the second alone |
| `SysProc.SigAlarmLastWins` | kernel/sysproc.c:103-119 | an accepted sigalarm after any sigalarm leaves the process as the second call alone would |

## Left out

- Spinlocks, `acquire`/`release` and `yield`. The model is single-threaded and
  every operation is one atomic step. This includes the count write in
  `kalloc` made outside the count lock. The reschedule is a returned flag.
- Byte-level `memset`/`memmove`. Contents are opaque `Page` values. The link
  word that `kfree` writes into the first word of a free frame is not
  modelled: the free list is a sequence. The sequence and the source's
  chain agree as long as no listed frame is freed again. After such a
  double free the model lists the frame twice. The source instead
  overwrites the frame's old link, which makes a cycle (a self-loop when
  the frame was the head), loses the frames that followed it, and hands out
  kalloc's junk fill as a frame address once the cycle comes round to a
  frame already handed out.
- The concrete definitions of `PA2REF`, `MAXREF`, `PTE2PA`, `PTE_FLAGS`,
  `MAXVA`, `PHYSTOP`, `end` and the PTE bit layout. They sit in headers that
  are not part of this model, so they are `Layout` fields and boolean flags.
- The internals of `walk`, `uvmunmap` and `mappages`, including multi-level
  page-table construction. The page-table pages that `mappages` allocates
  with `kalloc` are not drawn from the modelled free list.
- 64-bit address arithmetic. Addresses are unbounded naturals, so
  `p + PGSIZE` in `freerange` and `PGROUNDUP` near 2^64 do not wrap.
- The width of the reference counts. The C table holds 32-bit `int`s, but
  the model's counts are unbounded integers. So the model has no overflow
  of the increment in `addReference` past INT_MAX, which in practice wraps
  to a negative count that `kfree` then treats as free. It likewise has no
  overflow of the decrement in `kfree` below INT_MIN.
- The remaining calls in `kernel/sysproc.c` (`sys_exit`, `sys_getpid`,
  `sys_fork`, `sys_wait`, `sys_sbrk`, `sys_sleep`, `sys_kill`, `sys_uptime`,
  `sys_waitx`). They are thin wrappers over scheduler and process functions
  that are not part of this model.
- The user programs `user/strace.c` and `user/setpriority.c`. They only parse
  arguments and make system calls.
- Result widths in `kernel/sysproc.c`. The -1 that `sys_sigalarm` returns as
  a `uint64` is modelled as the integer -1.
- Argument widths in `kernel/sysproc.c`. `argint` narrows the 64-bit argument
  register to a 32-bit `int` (a priority of 2^32+5 arrives as 5). The model
  takes the already narrowed value as an unbounded integer parameter.
- KallocInvariant.KFreeKeepsInv: requires that the frame is not already on
  the free list, because the source does not detect a double free and a
  double free breaks the "listed once" half of the invariant.
- KallocInvariant.AddReferenceKeepsInv: requires that the count is not 0,
  because adding a reference to a listed frame at count 0 leaves a listed
  frame with a positive count; the source does not prevent this.

=== FILE: cow.dfy ===
/** Copy-on-write write-fault resolution of kernel/kalloc.c: copyndecref and
    pagefhandler.

    `walk`, `uvmunmap` and `mappages` act on the abstract page table as
    lookup, removal and insertion. Whether `mappages` can build the missing
    page-table levels is not decided here: the caller passes it as `mapOk`,
    and a failure is the panic at kernel/kalloc.c:154-155. */
module Cow {
  import opened Riscv
  import opened Kalloc

  /** copyndecref: a sole owner (count at most 1) keeps its frame and no count
      changes; a shared frame loses one reference and is copied into a fresh
      frame. 0 means failure: an out-of-range slot, or no free frame, in which
      case the decrement stays. */
  function CopyNDecRef(L: Layout, m: Mem, pa: nat): (r: (nat, Mem))
    ensures !InRange(L, L.pa2ref(pa)) ==> r == (0, m)
    ensures InRange(L, L.pa2ref(pa)) && Count(m, L.pa2ref(pa)) <= 1 ==> r == (pa, m)
    ensures InRange(L, L.pa2ref(pa)) && Count(m, L.pa2ref(pa)) > 1 && m.free == [] ==>
              && r.0 == 0
              && r.1.free == m.free && r.1.content == m.content
              && Count(r.1, L.pa2ref(pa)) == Count(m, L.pa2ref(pa)) - 1
              && (forall i :: i != L.pa2ref(pa) ==> Count(r.1, i) == Count(m, i))
    ensures InRange(L, L.pa2ref(pa)) && Count(m, L.pa2ref(pa)) > 1 && m.free != [] ==>
              && r.0 == m.free[0]
              && r.1.free == m.free[1..]
              && Count(r.1, L.pa2ref(r.0)) == 1
              && (L.pa2ref(r.0) != L.pa2ref(pa) ==> Count(r.1, L.pa2ref(pa)) == Count(m, L.pa2ref(pa)) - 1)
              && (forall i :: i != L.pa2ref(pa) && i != L.pa2ref(r.0) ==> Count(r.1, i) == Count(m, i))
              && (r.0 != pa && r.0 != 0 ==> PageAt(r.1, r.0) == PageAt(m, pa))
              && (forall q :: q != r.0 ==> PageAt(r.1, q) == PageAt(m, q))
  {
    var ref := L.pa2ref(pa);
    if !InRange(L, ref) then
      (0, m)
    else if Count(m, ref) <= 1 then
      (pa, m)
    else
      var m1 := m.(refs := m.refs[ref := Count(m, ref) - 1]);
      var (mem, m2) := KAlloc(L, m1);
      if mem == 0 then
        (0, m2)
      else
        (mem, m2.(content := m2.content[mem := PageAt(m2, pa)]))
  }

  /** What pagefhandler returns: the result code and the state it leaves. */
  datatype Resolution = Resolution(code: int, mem: Mem, pt: PageTable)

  /** The checks before any state is touched (kernel/kalloc.c:135-144): a
      null or out-of-range address, no entry, or an entry that is not valid,
      not user-accessible or not copy-on-write. */
  predicate FaultRejected(L: Layout, pt: PageTable, va: nat) {
    || va >= L.maxVA || va == 0
    || PgRoundDown(va) !in pt
    || !pt[PgRoundDown(va)].flags.v
    || !pt[PgRoundDown(va)].flags.u
    || !pt[PgRoundDown(va)].flags.cow
  }

  /** pagefhandler: resolve a write fault at `va` in page table `pt`. */
  function PageFHandler(L: Layout, m: Mem, pt: PageTable, va: nat, mapOk: bool): (r: Outcome<Resolution>)
    ensures FaultRejected(L, pt, va) ==> r == Ok(Resolution(-1, m, pt))
    ensures !FaultRejected(L, pt, va) ==>
              var pte := pt[PgRoundDown(va)];
              var (mem, m1) := CopyNDecRef(L, m, pte.pa);
              && (mem == 0 ==> r == Ok(Resolution(-1, m1, pt)))
              && (mem != 0 ==> (r.Panic? <==> !mapOk))
              && (mem != 0 && r.Ok? ==>
                    && r.value.code == 0
                    && r.value.mem == m1
                    && PgRoundDown(va) in r.value.pt
                    && r.value.pt[PgRoundDown(va)] == Pte(mem, MakeWritable(pte.flags))
                    && (forall page :: page != PgRoundDown(va) ==>
                          (page in r.value.pt <==> page in pt) &&
                          (page in pt ==> r.value.pt[page] == pt[page])))
  {
    if va >= L.maxVA || va == 0 then
      Ok(Resolution(-1, m, pt))
    else
      var page := PgRoundDown(va);
      if page !in pt then
        Ok(Resolution(-1, m, pt))
      else
        var pte := pt[page];
        if !pte.flags.v || !pte.flags.u || !pte.flags.cow then
          Ok(Resolution(-1, m, pt))
        else
          var (mem, m1) := CopyNDecRef(L, m, pte.pa);
          if mem == 0 then
            Ok(Resolution(-1, m1, pt))
          else
            var flags := MakeWritable(pte.flags);
            var unmapped := pt - {page};
            if !mapOk then
              Panic("Pagefhandler mappages")
            else
              Ok(Resolution(0, m1, unmapped[page := Pte(mem, flags)]))
  }
}

=== FILE: kalloc.dfy ===
/** The physical page allocator of kernel/kalloc.c: a LIFO free list of
    frames and a table of per-frame reference counts.

    The two spinlocks are dropped: every operation is one atomic transition
    of an immutable `Mem` value. `panic` is the `Panic` outcome; a kernel that
    panics does nothing more, so a `Panic` carries no state. */
module Kalloc {
  import opened Riscv

  /** A transition that either completes or halts the kernel. */
  datatype Outcome<T> = Ok(value: T) | Panic(reason: string)

  /** Placement of managed physical memory and the frame-to-slot index.
      `kernEnd` is the linker symbol `end`, `phyStop` is PHYSTOP, `maxVA` is
      MAXVA; `pa2ref` and `maxRef` stand for PA2REF and MAXREF, whose
      definitions are not part of this model. */
  datatype Layout = Layout(kernEnd: nat, phyStop: nat, maxVA: nat, maxRef: int, pa2ref: nat -> int)

  /** What the headers guarantee of PA2REF: every address kfree accepts gets
      a distinct slot of the count table, and no such address is 0. */
  ghost predicate LayoutOk(L: Layout) {
    && 0 < L.kernEnd
    && (forall pa :: FreeableAddr(L, pa) ==> InRange(L, L.pa2ref(pa)))
    && (forall pa, qa :: FreeableAddr(L, pa) && FreeableAddr(L, qa) && L.pa2ref(pa) == L.pa2ref(qa) ==> pa == qa)
  }

  /** The check kfree makes before touching anything (kernel/kalloc.c:59). */
  predicate FreeableAddr(L: Layout, pa: nat) {
    pa % PGSIZE == 0 && L.kernEnd <= pa && pa < L.phyStop
  }

  /** The bounds check of addReference and copyndecref. */
  predicate InRange(L: Layout, ref: int) {
    0 <= ref < L.maxRef
  }

  /** What a frame holds, as far as the allocator is concerned: nothing
      written yet, one of the two junk fills, or data written by a user. */
  datatype Page = Unwritten | Junk(fill: bv8) | Bytes(data: seq<bv8>)

  /** Allocator state: the free list (head first), the reference-count table
      (slot index to signed count; a missing slot holds 0, as the statically
      zeroed C array does) and the content of each frame. */
  datatype Mem = Mem(free: seq<nat>, refs: map<int, int>, content: map<nat, Page>)

  /** The state before kinit: empty list, every count 0. */
  const Boot: Mem := Mem([], map[], map[])

  function Count(m: Mem, ref: int): int {
    if ref in m.refs then m.refs[ref] else 0
  }

  function PageAt(m: Mem, pa: nat): Page {
    if pa in m.content then m.content[pa] else Unwritten
  }

  /** kfree: panic on a bad address; otherwise decrement the count and, only
      when the result is no longer positive, poison the frame and push it.
      There is no check that the frame is not already free. */
  function KFree(L: Layout, m: Mem, pa: nat): (r: Outcome<Mem>)
    ensures r.Panic? <==> !FreeableAddr(L, pa)
    ensures r.Ok? ==> Count(r.value, L.pa2ref(pa)) == Count(m, L.pa2ref(pa)) - 1
    ensures r.Ok? ==> forall i :: i != L.pa2ref(pa) ==> Count(r.value, i) == Count(m, i)
    ensures r.Ok? && Count(m, L.pa2ref(pa)) > 1 ==> r.value.free == m.free && r.value.content == m.content
    ensures r.Ok? && Count(m, L.pa2ref(pa)) <= 1 ==>
              && r.value.free == [pa] + m.free
              && (forall q :: q != pa ==> PageAt(r.value, q) == PageAt(m, q))
  {
    if !FreeableAddr(L, pa) then
      Panic("kfree")
    else
      var ref := L.pa2ref(pa);
      var n := Count(m, ref) - 1;
      var m1 := m.(refs := m.refs[ref := n]);
      if n > 0 then
        Ok(m1)
      else
        Ok(m1.(free := [pa] + m1.free, content := m1.content[pa := Junk(1)]))
  }

  /** kalloc: pop the head of the free list, junk-fill it and give it a count
      of exactly 1; 0 when the list is empty. */
  function KAlloc(L: Layout, m: Mem): (r: (nat, Mem))
    ensures m.free == [] ==> r == (0, m)
    ensures m.free != [] ==>
              && r.0 == m.free[0]
              && r.1.free == m.free[1..]
              && Count(r.1, L.pa2ref(r.0)) == 1
              && (forall i :: i != L.pa2ref(r.0) ==> Count(r.1, i) == Count(m, i))
              && (forall q :: q != r.0 ==> PageAt(r.1, q) == PageAt(m, q))
  {
    if m.free == [] then
      (0, m)
    else
      var pa := m.free[0];
      (pa, Mem(m.free[1..], m.refs[L.pa2ref(pa) := 1], m.content[pa := Junk(69)]))
  }

  /** addReference: one more holder of the frame; an out-of-range slot is
      ignored. */
  function AddReference(L: Layout, m: Mem, pa: nat): (r: Mem)
    ensures !InRange(L, L.pa2ref(pa)) ==> r == m
    ensures InRange(L, L.pa2ref(pa)) ==>
              && Count(r, L.pa2ref(pa)) == Count(m, L.pa2ref(pa)) + 1
              && (forall i :: i != L.pa2ref(pa) ==> Count(r, i) == Count(m, i))
              && r.free == m.free && r.content == m.content
  {
    var ref := L.pa2ref(pa);
    if !InRange(L, ref) then m else m.(refs := m.refs[ref := Count(m, ref) + 1])
  }


  /** The pages freerange visits: from `p` upward in page steps while a whole
      page still fits below `e`. */
  function Pages(p: nat, e: nat): (ps: seq<nat>)
    ensures forall k :: 0 <= k < |ps| ==> ps[k] == p + k * PGSIZE && ps[k] + PGSIZE <= e
    ensures p + (|ps| + 1) * PGSIZE > e
    decreases e - p
  {
    if p + PGSIZE <= e then [p] + Pages(p + PGSIZE, e) else []
  }

  lemma PagesStep(p: nat, e: nat)
    requires p + PGSIZE <= e
    ensures Pages(p, e) == [p] + Pages(p + PGSIZE, e)
    ensures Pages(p, e)[1..] == Pages(p + PGSIZE, e)
  {
  }

  lemma PagesAbove(p: nat, e: nat, q: nat)
    requires q in Pages(p, e)
    ensures p <= q
  {
    var k :| 0 <= k < |Pages(p, e)| && Pages(p, e)[k] == q;
  }

  /** The loop of freerange from page `p` on: kfree each page in ascending
      order, stopping at the first panic. Whether it panics depends only on
      the pages it visits: exactly when one of them fails kfree's address
      check. */
  function FreePages(L: Layout, m: Mem, p: nat, e: nat): (r: Outcome<Mem>)
    ensures r.Panic? <==> exists q :: q in Pages(p, e) && !FreeableAddr(L, q)
    decreases e - p
  {
    if p + PGSIZE <= e then
      PagesStep(p, e);
      match KFree(L, m, p)
      case Panic(why) => Panic(why)
      case Ok(m1) => FreePages(L, m1, p + PGSIZE, e)
    else
      Ok(m)
  }

  /** The order in which freerange's pushes leave the pages on the list. */
  function Reverse<T>(s: seq<T>): (r: seq<T>)
    ensures |r| == |s|
    ensures forall k :: 0 <= k < |s| ==> r[k] == s[|s| - 1 - k]
  {
    if s == [] then [] else Reverse(s[1..]) + [s[0]]
  }

  lemma ReverseCons<T>(x: T, s: seq<T>)
    ensures Reverse([x] + s) == Reverse(s) + [x]
  {
    assert ([x] + s)[1..] == s;
  }

  lemma ReverseMembers<T>(s: seq<T>)
    ensures forall x :: x in Reverse(s) <==> x in s
  {
    forall x | x in s
      ensures x in Reverse(s)
    {
      var k :| 0 <= k < |s| && s[k] == x;
      assert Reverse(s)[|s| - 1 - k] == x;
    }
  }

  /** The count slots of the pages freerange visits. */
  ghost function PageSlots(L: Layout, p: nat, e: nat): set<int>
    decreases e - p
  {
    if p + PGSIZE <= e then {L.pa2ref(p)} + PageSlots(L, p + PGSIZE, e) else {}
  }

  lemma {:induction false} PageSlotsMembers(L: Layout, p: nat, e: nat)
    ensures forall i :: i in PageSlots(L, p, e) <==> exists q :: q in Pages(p, e) && L.pa2ref(q) == i
    decreases e - p
  {
    if p + PGSIZE <= e {
      PageSlotsMembers(L, p + PGSIZE, e);
      PagesStep(p, e);
    }
  }

  /** Under a well-formed layout the first page's slot is not the slot of any
      later page. */
  lemma FirstSlotFresh(L: Layout, p: nat, e: nat)
    requires LayoutOk(L) && p + PGSIZE <= e
    requires forall q :: q in Pages(p, e) ==> FreeableAddr(L, q)
    ensures PageSlots(L, p, e) == {L.pa2ref(p)} + PageSlots(L, p + PGSIZE, e)
    ensures L.pa2ref(p) !in PageSlots(L, p + PGSIZE, e)
  {
    PagesStep(p, e);
    PageSlotsMembers(L, p + PGSIZE, e);
    forall q | q in Pages(p + PGSIZE, e)
      ensures L.pa2ref(q) != L.pa2ref(p)
    {
      PagesAbove(p + PGSIZE, e, q);
      assert q in Pages(p, e);
    }
  }

  /** One turn of the freerange loop on a page kfree accepts. */
  lemma FreePagesStep(L: Layout, m: Mem, p: nat, e: nat)
    requires p + PGSIZE <= e && FreeableAddr(L, p)
    ensures KFree(L, m, p).Ok?
    ensures FreePages(L, m, p, e) == FreePages(L, KFree(L, m, p).value, p + PGSIZE, e)
  {
  }

  /** freerange decrements the count of every page it visits by exactly one
      and leaves every other slot alone. */
  lemma {:induction false} FreePagesCounts(L: Layout, m: Mem, p: nat, e: nat)
    requires LayoutOk(L)
    requires forall q :: q in Pages(p, e) ==> FreeableAddr(L, q)
    ensures FreePages(L, m, p, e).Ok?
    ensures forall i :: i in PageSlots(L, p, e) ==> Count(FreePages(L, m, p, e).value, i) == Count(m, i) - 1
    ensures forall i :: i !in PageSlots(L, p, e) ==> Count(FreePages(L, m, p, e).value, i) == Count(m, i)
    decreases e - p
  {
    if p + PGSIZE <= e {
      FirstSlotFresh(L, p, e);
      PagesStep(p, e);
      assert p in Pages(p, e);
      FreePagesStep(L, m, p, e);
      var m1 := KFree(L, m, p).value;
      FreePagesCounts(L, m1, p + PGSIZE, e);
      var m2 := FreePages(L, m1, p + PGSIZE, e).value;
      var ref := L.pa2ref(p);
      var slots := PageSlots(L, p + PGSIZE, e);
      forall i | i in PageSlots(L, p, e)
        ensures Count(m2, i) == Count(m, i) - 1
      {
        if i != ref {
          assert i in slots;
        }
      }
      forall i | i !in PageSlots(L, p, e)
        ensures Count(m2, i) == Count(m, i)
      {
        assert i != ref && i !in slots;
      }
    } else {
      assert Pages(p, e) == [];
    }
  }

  /** One kfree of the first page keeps every later page at count at most 1. */
  lemma RestStillSingle(L: Layout, m: Mem, p: nat, e: nat)
    requires LayoutOk(L) && p + PGSIZE <= e
    requires forall q :: q in Pages(p, e) ==> FreeableAddr(L, q) && Count(m, L.pa2ref(q)) <= 1
    ensures KFree(L, m, p).Ok?
    ensures forall q :: q in Pages(p + PGSIZE, e) ==>
              FreeableAddr(L, q) && Count(KFree(L, m, p).value, L.pa2ref(q)) <= 1
  {
    FirstSlotFresh(L, p, e);
    PageSlotsMembers(L, p + PGSIZE, e);
    assert p in Pages(p, e);
    forall q | q in Pages(p + PGSIZE, e)
      ensures FreeableAddr(L, q) && Count(KFree(L, m, p).value, L.pa2ref(q)) <= 1
    {
      assert q in Pages(p, e);
      assert L.pa2ref(q) in PageSlots(L, p + PGSIZE, e);
    }
  }

  /** One turn of the freerange loop on an accepted page that is pushed. */
  lemma FreePagesUnfold(L: Layout, m: Mem, p: nat, e: nat, tail: seq<nat>)
    requires p + PGSIZE <= e && FreeableAddr(L, p) && Count(m, L.pa2ref(p)) <= 1
    requires FreePages(L, KFree(L, m, p).value, p + PGSIZE, e).Ok?
    requires FreePages(L, KFree(L, m, p).value, p + PGSIZE, e).value.free == tail + ([p] + m.free)
    ensures FreePages(L, m, p, e).Ok?
    ensures FreePages(L, m, p, e).value.free == (tail + [p]) + m.free
  {
  }

  /** freerange over pages that kfree accepts and that each hold at most one
      reference pushes every page in ascending order, so the last page freed
      is the new head. */
  lemma {:induction false} FreePagesPushesAll(L: Layout, m: Mem, p: nat, e: nat)
    requires LayoutOk(L)
    requires forall q :: q in Pages(p, e) ==> FreeableAddr(L, q) && Count(m, L.pa2ref(q)) <= 1
    ensures FreePages(L, m, p, e).Ok?
    ensures FreePages(L, m, p, e).value.free == Reverse(Pages(p, e)) + m.free
    decreases e - p
  {
    if p + PGSIZE <= e {
      RestStillSingle(L, m, p, e);
      PagesStep(p, e);
      var rest := Pages(p + PGSIZE, e);
      ReverseCons(p, rest);
      assert p in Pages(p, e);
      FreePagesPushesAll(L, KFree(L, m, p).value, p + PGSIZE, e);
      FreePagesUnfold(L, m, p, e, Reverse(rest));
    } else {
      assert Pages(p, e) == [];
    }
  }

  /** The freerange results for a well-formed layout over pages kfree
      accepts, each holding at most one reference. */
  lemma FreePagesResult(L: Layout, m: Mem, p: nat, e: nat)
    ensures LayoutOk(L) && (forall q :: q in Pages(p, e) ==> FreeableAddr(L, q) && Count(m, L.pa2ref(q)) <= 1) ==>
              && FreePages(L, m, p, e).Ok?
              && FreePages(L, m, p, e).value.free == Reverse(Pages(p, e)) + m.free
              && (forall i :: i in PageSlots(L, p, e) ==> Count(FreePages(L, m, p, e).value, i) == Count(m, i) - 1)
              && (forall i :: i !in PageSlots(L, p, e) ==> Count(FreePages(L, m, p, e).value, i) == Count(m, i))
  {
    if LayoutOk(L) && (forall q :: q in Pages(p, e) ==> FreeableAddr(L, q) && Count(m, L.pa2ref(q)) <= 1) {
      FreePagesPushesAll(L, m, p, e);
      FreePagesCounts(L, m, p, e);
    }
  }

  /** freerange(start, end): free every whole page from PGROUNDUP(start). It
      panics exactly when one of those pages fails kfree's address check.
      Under a well-formed layout, when every page passes the check and holds
      at most one reference, every page is pushed in ascending order (the
      highest becomes the head) and loses exactly one reference, and no other
      slot changes. */
  function FreeRange(L: Layout, m: Mem, start: nat, end: nat): (r: Outcome<Mem>)
    ensures r.Panic? <==> exists q :: q in Pages(PgRoundUp(start), end) && !FreeableAddr(L, q)
    ensures LayoutOk(L) && (forall q :: q in Pages(PgRoundUp(start), end) ==> FreeableAddr(L, q) && Count(m, L.pa2ref(q)) <= 1) ==>
              && r.Ok?
              && r.value.free == Reverse(Pages(PgRoundUp(start), end)) + m.free
              && (forall i :: i in PageSlots(L, PgRoundUp(start), end) ==> Count(r.value, i) == Count(m, i) - 1)
              && (forall i :: i !in PageSlots(L, PgRoundUp(start), end) ==> Count(r.value, i) == Count(m, i))
  {
    FreePagesResult(L, m, PgRoundUp(start), end);
    FreePages(L, m, PgRoundUp(start), end)
  }

  /** Every page from PGROUNDUP(end) below PHYSTOP passes kfree's check. */
  lemma FreeablePages(L: Layout)
    ensures forall q :: q in Pages(PgRoundUp(L.kernEnd), L.phyStop) ==> FreeableAddr(L, q)
  {
    var p := PgRoundUp(L.kernEnd);
    var ps := Pages(p, L.phyStop);
    forall q | q in ps
      ensures FreeableAddr(L, q)
    {
      var k :| 0 <= k < |ps| && ps[k] == q;
      assert q == p + k * PGSIZE;
    }
  }

  /** What kinit leaves behind, given a well-formed layout. */
  lemma KInitResult(L: Layout)
    ensures FreeRange(L, Boot, L.kernEnd, L.phyStop).Ok?
    ensures LayoutOk(L) ==>
              var m := FreeRange(L, Boot, L.kernEnd, L.phyStop).value;
              && m.free == Reverse(Pages(PgRoundUp(L.kernEnd), L.phyStop))
              && (forall q :: q in m.free ==> FreeableAddr(L, q) && Count(m, L.pa2ref(q)) == -1)
  {
    var p := PgRoundUp(L.kernEnd);
    var ps := Pages(p, L.phyStop);
    FreeablePages(L);
    if LayoutOk(L) {
      var m := FreeRange(L, Boot, L.kernEnd, L.phyStop).value;
      ReverseMembers(ps);
      PageSlotsMembers(L, p, L.phyStop);
      forall q | q in m.free
        ensures FreeableAddr(L, q) && Count(m, L.pa2ref(q)) == -1
      {
        assert q in ps;
      }
    }
  }

  /** kinit: hand every frame between the kernel image and PHYSTOP to the
      allocator. It never panics, since every page it frees passes kfree's
      check. Under a well-formed layout the free list is every page from
      PGROUNDUP(end) below PHYSTOP, highest first, each at count -1. */
  function KInit(L: Layout): (r: Outcome<Mem>)
    ensures r.Ok?
    ensures LayoutOk(L) ==>
              && r.value.free == Reverse(Pages(PgRoundUp(L.kernEnd), L.phyStop))
              && (forall q :: q in r.value.free ==> FreeableAddr(L, q) && Count(r.value, L.pa2ref(q)) == -1)
  {
    KInitResult(L);
    FreeRange(L, Boot, L.kernEnd, L.phyStop)
  }
}

=== FILE: kalloc_invariant.dfy ===
/** The free-list invariant of the allocator and how each operation of
    kernel/kalloc.c treats it, plus the round trips between them.

    Counts are signed and go negative: kinit leaves every free frame at -1,
    so the invariant is "on the free list implies count at most 0", not
    "count equals 0". kfree does not detect a double free, so the
    distinctness half of the invariant survives kfree only when the frame is
    not already on the list. */
module KallocInvariant {
  import opened Riscv
  import opened Kalloc
  import opened Cow

  /** Every listed frame is one kfree accepts, holds no positive count, and
      is listed once. */
  ghost predicate Inv(L: Layout, m: Mem) {
    && (forall k :: 0 <= k < |m.free| ==> FreeableAddr(L, m.free[k]) && Count(m, L.pa2ref(m.free[k])) <= 0)
    && (forall j, k :: 0 <= j < k < |m.free| ==> m.free[j] != m.free[k])
  }

  /** After kinit the invariant holds: the pages are distinct, and kinit's
      own contract gives every listed frame count -1. */
  lemma KInitEstablishesInv(L: Layout)
    requires LayoutOk(L)
    ensures Inv(L, KInit(L).value)
  {
    ReverseDistinct(Pages(PgRoundUp(L.kernEnd), L.phyStop));
  }

  /** Distinct pages stay distinct when reversed. */
  lemma ReverseDistinct(ps: seq<nat>)
    requires forall j, k :: 0 <= j < k < |ps| ==> ps[j] != ps[k]
    ensures forall j, k :: 0 <= j < k < |Reverse(ps)| ==> Reverse(ps)[j] != Reverse(ps)[k]
  {
  }

  /** kfree keeps the invariant unless it is a double free of a listed frame. */
  lemma KFreeKeepsInv(L: Layout, m: Mem, pa: nat)
    requires Inv(L, m)
    requires pa !in m.free
    ensures KFree(L, m, pa).Ok? ==> Inv(L, KFree(L, m, pa).value)
  {
    if KFree(L, m, pa).Ok? {
      var m' := KFree(L, m, pa).value;
      forall k | 0 <= k < |m'.free|
        ensures FreeableAddr(L, m'.free[k]) && Count(m', L.pa2ref(m'.free[k])) <= 0
      {
        if Count(m, L.pa2ref(pa)) <= 1 && k > 0 {
          assert m'.free[k] == m.free[k - 1];
        }
      }
      forall j, k | 0 <= j < k < |m'.free|
        ensures m'.free[j] != m'.free[k]
      {
        if Count(m, L.pa2ref(pa)) <= 1 {
          assert m'.free[k] == m.free[k - 1];
          if j > 0 {
            assert m'.free[j] == m.free[j - 1];
          }
        }
      }
    }
  }

  /** kalloc keeps the invariant; it fails exactly on an empty list; and the
      frame it returns is no longer listed, so no later kalloc returns it
      while it is in use. */
  lemma KAllocKeepsInv(L: Layout, m: Mem)
    requires LayoutOk(L) && Inv(L, m)
    ensures Inv(L, KAlloc(L, m).1)
    ensures KAlloc(L, m).0 == 0 <==> m.free == []
    ensures KAlloc(L, m).0 != 0 ==> KAlloc(L, m).0 !in KAlloc(L, m).1.free
  {
    if m.free != [] {
      var (pa, m') := KAlloc(L, m);
      forall k | 0 <= k < |m'.free|
        ensures FreeableAddr(L, m'.free[k]) && Count(m', L.pa2ref(m'.free[k])) <= 0
      {
        assert m'.free[k] == m.free[k + 1];
        assert m.free[k + 1] != m.free[0];
      }
    }
  }

  /** On a non-empty list two kallocs in a row never return the same frame:
      the second returns another listed frame, or 0 once the list is empty,
      and the first is never 0. */
  lemma KAllocTwiceDistinct(L: Layout, m: Mem)
    requires LayoutOk(L) && Inv(L, m)
    requires m.free != []
    ensures KAlloc(L, m).0 != KAlloc(L, KAlloc(L, m).1).0
  {
    KAllocKeepsInv(L, m);
  }

  /** addReference keeps the invariant when the frame is not a listed frame at
      count 0 (for instance when the caller already holds a reference). */
  lemma AddReferenceKeepsInv(L: Layout, m: Mem, pa: nat)
    requires Inv(L, m)
    requires Count(m, L.pa2ref(pa)) != 0
    ensures Inv(L, AddReference(L, m, pa))
  {
  }

  /** copyndecref keeps the invariant; on the shared path the copy is a frame
      other than the original, the original loses exactly one reference, and
      the copy holds the original's content. */
  lemma CopyNDecRefKeepsInv(L: Layout, m: Mem, pa: nat)
    requires LayoutOk(L) && Inv(L, m)
    ensures Inv(L, CopyNDecRef(L, m, pa).1)
    ensures InRange(L, L.pa2ref(pa)) && Count(m, L.pa2ref(pa)) > 1 && m.free != [] ==>
              var (mem, m') := CopyNDecRef(L, m, pa);
              && mem != 0 && mem != pa
              && Count(m', L.pa2ref(pa)) == Count(m, L.pa2ref(pa)) - 1
              && Count(m', L.pa2ref(mem)) == 1
              && PageAt(m', mem) == PageAt(m, pa)
  {
    var ref := L.pa2ref(pa);
    if InRange(L, ref) && Count(m, ref) > 1 {
      var m1 := m.(refs := m.refs[ref := Count(m, ref) - 1]);
      assert Inv(L, m1) by {
        forall k | 0 <= k < |m1.free|
          ensures Count(m1, L.pa2ref(m1.free[k])) <= 0
        {
          assert Count(m1, L.pa2ref(m1.free[k])) <= Count(m, L.pa2ref(m1.free[k]));
        }
      }
      KAllocKeepsInv(L, m1);
      if m.free != [] {
        var h := m.free[0];
        assert Count(m, L.pa2ref(h)) <= 0;
        assert L.pa2ref(h) != ref;
      }
    }
  }

  /** A write fault leaves the allocator invariant intact, and a resolved
      fault leaves no entry both copy-on-write and writable if there was none
      before. */
  lemma PageFHandlerKeepsInv(L: Layout, m: Mem, pt: PageTable, va: nat, mapOk: bool)
    requires LayoutOk(L) && Inv(L, m)
    requires CowExclusive(pt)
    ensures PageFHandler(L, m, pt, va, mapOk).Ok? ==>
              && Inv(L, PageFHandler(L, m, pt, va, mapOk).value.mem)
              && CowExclusive(PageFHandler(L, m, pt, va, mapOk).value.pt)
  {
    if !FaultRejected(L, pt, va) {
      CopyNDecRefKeepsInv(L, m, pt[PgRoundDown(va)].pa);
    }
  }

  /** Counts agree slot by slot. */
  ghost predicate SameCounts(m: Mem, m': Mem) {
    forall i :: Count(m, i) == Count(m', i)
  }

  /** kalloc then kfree of the frame it returned puts the frame back at the
      head with count 0; nothing else changes. */
  lemma AllocThenFree(L: Layout, m: Mem)
    requires LayoutOk(L) && Inv(L, m)
    requires m.free != []
    ensures var (pa, m1) := KAlloc(L, m);
            && KFree(L, m1, pa).Ok?
            && KFree(L, m1, pa).value.free == m.free
            && Count(KFree(L, m1, pa).value, L.pa2ref(pa)) == 0
            && (forall i :: i != L.pa2ref(pa) ==> Count(KFree(L, m1, pa).value, i) == Count(m, i))
  {
    var (pa, m1) := KAlloc(L, m);
    assert FreeableAddr(L, m.free[0]);
    assert [pa] + m.free[1..] == m.free;
  }

  /** addReference then kfree of a frame in use restores every count and
      leaves the free list and contents alone. */
  lemma AddReferenceThenFree(L: Layout, m: Mem, pa: nat)
    requires FreeableAddr(L, pa) && InRange(L, L.pa2ref(pa))
    requires Count(m, L.pa2ref(pa)) >= 1
    ensures KFree(L, AddReference(L, m, pa), pa).Ok?
    ensures SameCounts(KFree(L, AddReference(L, m, pa), pa).value, m)
    ensures KFree(L, AddReference(L, m, pa), pa).value.free == m.free
    ensures KFree(L, AddReference(L, m, pa), pa).value.content == m.content
  {
  }

  /** The sole-owner path: no frame is allocated, no count moves, and the
      faulting page is remapped to the same frame, writable and no longer
      copy-on-write. */
  lemma SoleOwnerFault(L: Layout, m: Mem, pt: PageTable, va: nat)
    requires !FaultRejected(L, pt, va)
    requires pt[PgRoundDown(va)].pa != 0
    requires InRange(L, L.pa2ref(pt[PgRoundDown(va)].pa))
    requires Count(m, L.pa2ref(pt[PgRoundDown(va)].pa)) <= 1
    ensures var pte := pt[PgRoundDown(va)];
            PageFHandler(L, m, pt, va, true) ==
              Ok(Resolution(0, m, pt[PgRoundDown(va) := Pte(pte.pa, MakeWritable(pte.flags))]))
  {
    var page := PgRoundDown(va);
    var r := PageFHandler(L, m, pt, va, true).value;
    assert r.pt == pt[page := Pte(pt[page].pa, MakeWritable(pt[page].flags))];
  }

  /** The shared path with a frame held by two address spaces A and B: A's
      fault gives A a private copy and drops the shared count to 1; B's
      entry, still copy-on-write, then resolves on the sole-owner path to the
      original frame. */
  lemma SharedFaultThenPeer(L: Layout, m: Mem, ptA: PageTable, ptB: PageTable, va: nat, vb: nat)
    requires LayoutOk(L) && Inv(L, m)
    requires !FaultRejected(L, ptA, va) && !FaultRejected(L, ptB, vb)
    requires ptA[PgRoundDown(va)].pa == ptB[PgRoundDown(vb)].pa
    requires FreeableAddr(L, ptA[PgRoundDown(va)].pa)
    requires Count(m, L.pa2ref(ptA[PgRoundDown(va)].pa)) == 2
    requires m.free != []
    ensures var pa := ptA[PgRoundDown(va)].pa;
            var rA := PageFHandler(L, m, ptA, va, true);
            && rA.Ok? && rA.value.code == 0
            && rA.value.pt[PgRoundDown(va)].pa != pa
            && PageAt(rA.value.mem, rA.value.pt[PgRoundDown(va)].pa) == PageAt(m, pa)
            && Count(rA.value.mem, L.pa2ref(pa)) == 1
            && PageFHandler(L, rA.value.mem, ptB, vb, true).Ok?
            && PageFHandler(L, rA.value.mem, ptB, vb, true).value.pt[PgRoundDown(vb)].pa == pa
  {
    var pa := ptA[PgRoundDown(va)].pa;
    CopyNDecRefKeepsInv(L, m, pa);
    var (mem, m1) := CopyNDecRef(L, m, pa);
    SoleOwnerFault(L, m1, ptB, vb);
  }

  /** The leak kept from the source: when the shared path finds no free frame
      the fault is unresolved, the page table is untouched, and yet the
      frame has lost a reference. */
  lemma FailedCopyLeaksReference(L: Layout, m: Mem, pt: PageTable, va: nat, mapOk: bool)
    requires !FaultRejected(L, pt, va)
    requires InRange(L, L.pa2ref(pt[PgRoundDown(va)].pa))
    requires Count(m, L.pa2ref(pt[PgRoundDown(va)].pa)) > 1
    requires m.free == []
    ensures var pa := pt[PgRoundDown(va)].pa;
            var r := PageFHandler(L, m, pt, va, mapOk);
            && r.Ok? && r.value.code == -1 && r.value.pt == pt
            && Count(r.value.mem, L.pa2ref(pa)) == Count(m, L.pa2ref(pa)) - 1
  {
  }

  /** The other half of "on the free list exactly when unreferenced": a frame
      kfree accepts that fits wholly below PHYSTOP is listed whenever its
      count is at most 0, so no free frame is ever lost. */
  ghost predicate NoLostFrame(L: Layout, m: Mem) {
    forall pa: nat :: FreeableAddr(L, pa) && pa + PGSIZE <= L.phyStop && Count(m, L.pa2ref(pa)) <= 0 ==> pa in m.free
  }

  /** With both invariants, a managed frame is on the free list exactly when
      it holds no reference. */
  lemma FreeIffUnreferenced(L: Layout, m: Mem, pa: nat)
    requires Inv(L, m) && NoLostFrame(L, m)
    requires FreeableAddr(L, pa) && pa + PGSIZE <= L.phyStop
    ensures pa in m.free <==> Count(m, L.pa2ref(pa)) <= 0
  {
    if pa in m.free {
      var k :| 0 <= k < |m.free| && m.free[k] == pa;
    }
  }

  /** kinit lists every managed frame, each at count -1. */
  lemma KInitNoLostFrame(L: Layout)
    requires LayoutOk(L)
    ensures NoLostFrame(L, KInit(L).value)
  {
    var p := PgRoundUp(L.kernEnd);
    var ps := Pages(p, L.phyStop);
    var m := KInit(L).value;
    ReverseMembers(ps);
    forall q: nat | FreeableAddr(L, q) && q + PGSIZE <= L.phyStop && Count(m, L.pa2ref(q)) <= 0
      ensures q in m.free
    {
      assert p <= q;
      var k := (q - p) / PGSIZE;
      assert q == p + k * PGSIZE;
      assert k < |ps|;
      assert ps[k] == q;
    }
  }

  /** kfree loses no frame, even on a double free: a frame whose count it
      drives to at most 0 is pushed, and every other slot is untouched. */
  lemma KFreeNoLostFrame(L: Layout, m: Mem, pa: nat)
    requires LayoutOk(L) && NoLostFrame(L, m)
    ensures KFree(L, m, pa).Ok? ==> NoLostFrame(L, KFree(L, m, pa).value)
  {
  }

  /** kalloc loses no frame: only the frame it hands out leaves the list, and
      that frame's count becomes 1. */
  lemma KAllocNoLostFrame(L: Layout, m: Mem)
    requires LayoutOk(L) && Inv(L, m) && NoLostFrame(L, m)
    ensures NoLostFrame(L, KAlloc(L, m).1)
  {
    if m.free != [] {
      var (pa, m') := KAlloc(L, m);
      forall q: nat | FreeableAddr(L, q) && q + PGSIZE <= L.phyStop && Count(m', L.pa2ref(q)) <= 0
        ensures q in m'.free
      {
        var k :| 0 <= k < |m.free| && m.free[k] == q;
        assert k > 0;
        assert m'.free[k - 1] == q;
      }
    }
  }

  /** addReference only raises a count, so it loses no frame. */
  lemma AddReferenceNoLostFrame(L: Layout, m: Mem, pa: nat)
    requires NoLostFrame(L, m)
    ensures NoLostFrame(L, AddReference(L, m, pa))
  {
  }

  /** copyndecref loses no frame: its decrement leaves the shared frame at a
      count of at least 1, and its kalloc loses none. */
  lemma CopyNDecRefNoLostFrame(L: Layout, m: Mem, pa: nat)
    requires LayoutOk(L) && Inv(L, m) && NoLostFrame(L, m)
    ensures NoLostFrame(L, CopyNDecRef(L, m, pa).1)
  {
    var ref := L.pa2ref(pa);
    if InRange(L, ref) && Count(m, ref) > 1 {
      var m1 := m.(refs := m.refs[ref := Count(m, ref) - 1]);
      assert Inv(L, m1) by {
        forall k | 0 <= k < |m1.free|
          ensures Count(m1, L.pa2ref(m1.free[k])) <= 0
        {
          assert Count(m1, L.pa2ref(m1.free[k])) <= Count(m, L.pa2ref(m1.free[k]));
        }
      }
      KAllocNoLostFrame(L, m1);
    }
  }

  /** A write fault loses no frame. */
  lemma PageFHandlerNoLostFrame(L: Layout, m: Mem, pt: PageTable, va: nat, mapOk: bool)
    requires LayoutOk(L) && Inv(L, m) && NoLostFrame(L, m)
    ensures PageFHandler(L, m, pt, va, mapOk).Ok? ==> NoLostFrame(L, PageFHandler(L, m, pt, va, mapOk).value.mem)
  {
    if !FaultRejected(L, pt, va) {
      CopyNDecRefNoLostFrame(L, m, pt[PgRoundDown(va)].pa);
    }
  }
}

=== FILE: kalloc_scenarios.dfy ===
/** Concrete runs of the allocator on a machine with three managed frames:
    the kernel image ends at 0x2000, PHYSTOP is 0x5000, and PA2REF is the
    page number. */
module KallocScenarios {
  import opened Riscv
  import opened Kalloc

  const L3: Layout := Layout(0x2000, 0x5000, 0x40_0000_0000, 5, pa => pa / PGSIZE)

  /** kinit on the three-frame machine. */
  lemma KInitThreeFrames()
    ensures KInit(L3).Ok?
    ensures KInit(L3).value.free == [0x4000, 0x3000, 0x2000]
    ensures Count(KInit(L3).value, 2) == -1
    ensures Count(KInit(L3).value, 3) == -1
    ensures Count(KInit(L3).value, 4) == -1
  {
    assert PgRoundUp(0x2000) == 0x2000;
    var m1 := KFree(L3, Boot, 0x2000).value;
    var m2 := KFree(L3, m1, 0x3000).value;
    var m3 := KFree(L3, m2, 0x4000).value;
    assert FreePages(L3, m3, 0x5000, 0x5000) == Ok(m3);
    assert FreePages(L3, m2, 0x4000, 0x5000) == Ok(m3);
    assert FreePages(L3, m1, 0x3000, 0x5000) == Ok(m3);
    assert FreePages(L3, Boot, 0x2000, 0x5000) == Ok(m3);
  }

  /** Three frames managed: three allocations succeed, a fourth returns 0,
      and freeing one of the three leaves a free list of length 1. */
  lemma AllocateAllThenFreeOne()
    ensures KInit(L3).Ok?
    ensures var m0 := KInit(L3).value;
            var (a, m1) := KAlloc(L3, m0);
            var (b, m2) := KAlloc(L3, m1);
            var (c, m3) := KAlloc(L3, m2);
            var (d, m4) := KAlloc(L3, m3);
            && a != 0 && b != 0 && c != 0 && a != b && b != c && a != c
            && d == 0
            && KFree(L3, m4, b).Ok?
            && |KFree(L3, m4, b).value.free| == 1
  {
    KInitThreeFrames();
  }

  /** kfree does not detect a double free: freeing the tail frame 0x2000
      again succeeds and drives its count to -2, and the first and fourth
      later allocations both hand out 0x2000. The model lists the frame a
      second time. The source links it in place, making the chain the cycle
      0x2000, 0x4000, 0x3000, 0x2000, which gives the same four allocations.
      After that the chain continues with the junk kalloc wrote into
      0x2000. */
  lemma DoubleFreeHandsOutTwice()
    ensures KInit(L3).Ok?
    ensures var m0 := KInit(L3).value;
            var r := KFree(L3, m0, 0x2000);
            && r.Ok?
            && r.value.free == [0x2000, 0x4000, 0x3000, 0x2000]
            && Count(r.value, 2) == -2
            && var (a, m1) := KAlloc(L3, r.value);
               var (b, m2) := KAlloc(L3, m1);
               var (c, m3) := KAlloc(L3, m2);
               var (d, m4) := KAlloc(L3, m3);
               a == 0x2000 && d == 0x2000
  {
    KInitThreeFrames();
  }
}

=== FILE: riscv.dfy ===
/** Page geometry and the abstract view of a process page table.

    The Sv39 bit layout of a page-table entry (PTE2PA, PTE_FLAGS, the PTE_* bit
    positions) lives in headers that are not part of this model: an entry is a
    physical frame plus a record of boolean permission bits, and a page table
    is a finite map from page-aligned virtual addresses to entries. */
module Riscv {

  /** Bytes per page and per physical frame. */
  const PGSIZE: nat := 4096

  /** PGROUNDUP: the least page boundary at or above `a`. */
  function PgRoundUp(a: nat): (r: nat)
    ensures r % PGSIZE == 0
    ensures a <= r < a + PGSIZE
  {
    (a + PGSIZE - 1) / PGSIZE * PGSIZE
  }

  /** PGROUNDDOWN: the page boundary of the page holding `a`. */
  function PgRoundDown(a: nat): (r: nat)
    ensures r % PGSIZE == 0
    ensures r <= a < r + PGSIZE
  {
    a / PGSIZE * PGSIZE
  }

  /** Permission bits of a leaf entry: valid, readable, writable, executable,
      user-accessible, and the software copy-on-write marker. */
  datatype Flags = Flags(v: bool, r: bool, w: bool, x: bool, u: bool, cow: bool)

  /** A leaf entry: the frame it translates to and its bits. */
  datatype Pte = Pte(pa: nat, flags: Flags)

  /** Leaf entries of one address space, keyed by page-aligned virtual address.
      A key that is absent means `walk` finds no entry for that page. */
  type PageTable = map<nat, Pte>

  /** `(flags | PTE_W) & ~PTE_COW`: grant write access, drop the marker, keep
      every other bit. */
  function MakeWritable(f: Flags): (g: Flags)
    ensures g.w && !g.cow
    ensures g.v == f.v && g.r == f.r && g.x == f.x && g.u == f.u
  {
    f.(w := true, cow := false)
  }

  /** No entry is both copy-on-write and writable. */
  ghost predicate CowExclusive(pt: PageTable) {
    forall page :: page in pt ==> !(pt[page].flags.cow && pt[page].flags.w)
  }
}

=== FILE: sysproc.dfy ===
/** The scheduling, alarm and tracing system calls of kernel/sysproc.c:
    argument validation and field updates on process records.

    Argument fetching (argint, argaddr) is replaced by parameters, the
    current process (myproc) by the record passed in, and the process table
    by a sequence. The per-process locks are dropped, and the `yield` of
    set_priority becomes a "reschedule requested" flag. */
module SysProc {

  /** The saved user registers; only `a0`, the value sigreturn hands back,
      is looked at. */
  datatype Trapframe = Trapframe(a0: int, others: seq<int>)

  /** The fields of a process these calls read or write. `staticPriority` and
      `dynamicPriority` are the source's SP and DP. */
  datatype Proc = Proc(
    pid: int,
    staticPriority: int,
    dynamicPriority: int,
    sleepTime: int,
    runTime: int,
    tickets: int,
    mask: int,
    cputicks: int,
    passedCputicks: int,
    handler: nat,
    trapframe: Trapframe,
    initialTrapframe: Trapframe)

  /** A result code with the caller's process after the call. */
  datatype Reply = Reply(code: int, proc: Proc)

  /** sys_trace: record the syscall-tracing mask; never fails. */
  function Trace(p: Proc, mask: int): (r: Reply)
    ensures r.code == 0
    ensures r.proc.mask == mask
    ensures r.proc.(mask := p.mask) == p
  {
    Reply(0, p.(mask := mask))
  }

  /** sys_sigalarm: a negative tick count is refused; otherwise the alarm
      interval and handler address are stored. */
  function SigAlarm(p: Proc, cputicks: int, handler: nat): (r: Reply)
    ensures r.code == 0 || r.code == -1
    ensures r.code == -1 <==> cputicks < 0
    ensures r.code == -1 ==> r.proc == p
    ensures r.code == 0 ==> r.proc.cputicks == cputicks && r.proc.handler == handler
    ensures r.proc.(cputicks := p.cputicks, handler := p.handler) == p
  {
    if cputicks < 0 then Reply(-1, p) else Reply(0, p.(cputicks := cputicks, handler := handler))
  }

  /** sys_sigreturn: restore the registers saved when the alarm fired, make
      the ticks that had passed the new interval, clear the passed ticks, and
      return the restored `a0`. */
  function SigReturn(p: Proc): (r: Reply)
    ensures r.code == p.initialTrapframe.a0
    ensures r.proc.trapframe == p.initialTrapframe
    ensures r.proc.cputicks == p.passedCputicks && r.proc.passedCputicks == 0
    ensures r.proc.(trapframe := p.trapframe, cputicks := p.cputicks, passedCputicks := p.passedCputicks) == p
  {
    var restored := p.(trapframe := p.initialTrapframe);
    var q := restored.(cputicks := restored.passedCputicks);
    Reply(q.trapframe.a0, q.(passedCputicks := 0))
  }

  /** sys_settickets: a non-positive ticket count is refused; otherwise it
      becomes the process's lottery tickets. */
  function SetTickets(p: Proc, number: int): (r: Reply)
    ensures r.code == 0 || r.code == -1
    ensures r.code == -1 <==> number <= 0
    ensures r.code == -1 ==> r.proc == p
    ensures r.code == 0 ==> r.proc.tickets == number && r.proc.tickets > 0
    ensures r.proc.(tickets := p.tickets) == p
  {
    if number <= 0 then Reply(-1, p) else Reply(0, p.(tickets := number))
  }

  /** A second sigreturn right after the first sees no passed ticks, so it
      stops the alarm interval at 0 and returns the same `a0`. */
  lemma {:induction false} SigReturnTwice(p: Proc)
    ensures SigReturn(SigReturn(p).proc).proc.cputicks == 0
    ensures SigReturn(SigReturn(p).proc).code == SigReturn(p).code
  {
  }

  /** settickets with the same valid count twice changes nothing the second
      time. */
  lemma SetTicketsIdempotent(p: Proc, number: int)
    requires number > 0
    ensures SetTickets(SetTickets(p, number).proc, number) == SetTickets(p, number)
  {
  }

  /** The outcome of set_priority: the result code, the process table after
      the call, and whether the caller asked to be rescheduled. */
  datatype PriorityReply = PriorityReply(code: int, table: seq<Proc>, resched: bool)

  /** The fields set_priority rewrites on a process whose pid matches. */
  function Reprioritise(p: Proc, priority: int): (q: Proc)
    ensures q.staticPriority == priority && q.dynamicPriority == priority
    ensures q.sleepTime == 0 && q.runTime == 0
    ensures q.(staticPriority := p.staticPriority, dynamicPriority := p.dynamicPriority,
               sleepTime := p.sleepTime, runTime := p.runTime) == p
  {
    p.(staticPriority := priority, sleepTime := 0, runTime := 0, dynamicPriority := priority)
  }

  /** The table scan of set_priority from the current slot on: `oldSP` and
      `again` are the values carried from the slots already visited. The
      code is the carried value when no slot matches (and the old SP of the
      last matching slot otherwise, see ScanProcsCode); a reschedule is asked
      for when some match had a larger DP than the new priority. */
  function ScanProcs(procs: seq<Proc>, priority: int, pid: int, oldSP: int, again: bool): (r: PriorityReply)
    ensures |r.table| == |procs|
    ensures forall i :: 0 <= i < |procs| ==>
              r.table[i] == (if procs[i].pid == pid then Reprioritise(procs[i], priority) else procs[i])
    ensures (forall i :: 0 <= i < |procs| ==> procs[i].pid != pid) ==> r.code == oldSP
    ensures r.resched <==> again || exists i :: 0 <= i < |procs| && procs[i].pid == pid && priority < procs[i].dynamicPriority
    decreases |procs|
  {
    if procs == [] then
      PriorityReply(oldSP, [], again)
    else
      var p := procs[0];
      var hit := p.pid == pid;
      var r := ScanProcs(procs[1..], priority, pid,
                         if hit then p.staticPriority else oldSP,
                         again || (hit && priority < p.dynamicPriority));
      PriorityReply(r.code, [if hit then Reprioritise(p, priority) else p] + r.table, r.resched)
  }

  /** The code ScanProcs returns is the old SP of the last slot whose pid
      matches. */
  lemma {:induction false} ScanProcsCode(procs: seq<Proc>, priority: int, pid: int, oldSP: int, again: bool, i: nat)
    requires i < |procs| && procs[i].pid == pid
    requires forall j :: i < j < |procs| ==> procs[j].pid != pid
    ensures ScanProcs(procs, priority, pid, oldSP, again).code == procs[i].staticPriority
    decreases |procs|
  {
    var p := procs[0];
    var rest := procs[1..];
    if i == 0 {
      assert forall j :: 0 <= j < |rest| ==> rest[j].pid != pid by {
        forall j | 0 <= j < |rest|
          ensures rest[j].pid != pid
        {
          assert rest[j] == procs[j + 1];
        }
      }
    } else {
      assert rest[i - 1] == procs[i];
      forall j | i - 1 < j < |rest|
        ensures rest[j].pid != pid
      {
        assert rest[j] == procs[j + 1];
      }
      var hit := p.pid == pid;
      ScanProcsCode(rest, priority, pid, if hit then p.staticPriority else oldSP,
                    again || (hit && priority < p.dynamicPriority), i - 1);
    }
  }

  lemma ScanProcsCodeAll(procs: seq<Proc>, priority: int, pid: int, oldSP: int, again: bool)
    ensures forall i ::
              (0 <= i < |procs| && procs[i].pid == pid && forall j :: i < j < |procs| ==> procs[j].pid != pid) ==>
              ScanProcs(procs, priority, pid, oldSP, again).code == procs[i].staticPriority
  {
    forall i | 0 <= i < |procs| && procs[i].pid == pid && forall j :: i < j < |procs| ==> procs[j].pid != pid
      ensures ScanProcs(procs, priority, pid, oldSP, again).code == procs[i].staticPriority
    {
      ScanProcsCode(procs, priority, pid, oldSP, again, i);
    }
  }

  /** sys_set_priority: refuse a negative pid or a priority outside 0..100;
      otherwise reset every process with that pid to the new priority. */
  function SetPriority(procs: seq<Proc>, priority: int, pid: int): (r: PriorityReply)
    ensures pid < 0 || priority < 0 || priority > 100 ==> r == PriorityReply(-1, procs, false)
    ensures 0 <= pid && 0 <= priority <= 100 ==>
              && |r.table| == |procs|
              && (forall i :: 0 <= i < |procs| && procs[i].pid == pid ==>
                    r.table[i] == Reprioritise(procs[i], priority))
              && (forall i :: 0 <= i < |procs| && procs[i].pid != pid ==> r.table[i] == procs[i])
              && ((forall i :: 0 <= i < |procs| ==> procs[i].pid != pid) ==> r.code == -1 && !r.resched)
              && (forall i ::
                    (0 <= i < |procs| && procs[i].pid == pid && forall j :: i < j < |procs| ==> procs[j].pid != pid) ==>
                    r.code == procs[i].staticPriority)
              && (r.resched <==> exists i :: 0 <= i < |procs| && procs[i].pid == pid && priority < procs[i].dynamicPriority)
  {
    if pid < 0 || priority < 0 || priority > 100 then
      PriorityReply(-1, procs, false)
    else
      ScanProcsCodeAll(procs, priority, pid, -1, false);
      ScanProcs(procs, priority, pid, -1, false)
  }

  /** A second scan over the table a first scan produced rewrites nothing
      and asks for no reschedule. */
  lemma ScanProcsTwice(procs: seq<Proc>, priority: int, pid: int, oldSP: int)
    ensures var t := ScanProcs(procs, priority, pid, oldSP, false).table;
            && ScanProcs(t, priority, pid, oldSP, false).table == t
            && !ScanProcs(t, priority, pid, oldSP, false).resched
            && (forall i :: 0 <= i < |t| ==> t[i].pid == procs[i].pid)
  {
    var t := ScanProcs(procs, priority, pid, oldSP, false).table;
    var twice := ScanProcs(t, priority, pid, oldSP, false);
    forall i | 0 <= i < |t|
      ensures twice.table[i] == t[i]
    {
    }
    assert twice.table == t;
  }

  /** Setting the same priority twice: the second call leaves the table as
      the first left it, never asks for a reschedule, and, when some process
      matched, returns the new priority. */
  lemma SetPriorityIdempotent(procs: seq<Proc>, priority: int, pid: int)
    requires 0 <= pid && 0 <= priority <= 100
    ensures var once := SetPriority(procs, priority, pid);
            var twice := SetPriority(once.table, priority, pid);
            && twice.table == once.table
            && !twice.resched
            && ((exists i :: 0 <= i < |procs| && procs[i].pid == pid) ==> twice.code == priority)
  {
    ScanProcsTwice(procs, priority, pid, -1);
    var t := ScanProcs(procs, priority, pid, -1, false).table;
    assert SetPriority(procs, priority, pid).table == t;
    assert SetPriority(t, priority, pid) == ScanProcs(t, priority, pid, -1, false);
    if exists i :: 0 <= i < |procs| && procs[i].pid == pid {
      var last := LastMatch(procs, priority, pid);
      ScanProcsCode(t, priority, pid, -1, false, last);
    }
  }

  /** The last slot whose pid matches, when one does: for a valid call its
      old SP is the code set_priority returns. */
  lemma LastMatch(procs: seq<Proc>, priority: int, pid: int) returns (last: nat)
    requires exists i :: 0 <= i < |procs| && procs[i].pid == pid
    ensures last < |procs| && procs[last].pid == pid
    ensures forall j :: last < j < |procs| ==> procs[j].pid != pid
    ensures 0 <= pid && 0 <= priority <= 100 ==> SetPriority(procs, priority, pid).code == procs[last].staticPriority
  {
    last := |procs| - 1;
    while procs[last].pid != pid
      invariant last < |procs|
      invariant forall j :: last < j < |procs| ==> procs[j].pid != pid
      decreases last
    {
      last := last - 1;
    }
    ScanProcsCode(procs, priority, pid, -1, false, last);
  }

  /** What the validations of these calls keep true of a process: the alarm
      interval is not negative and the process holds at least one ticket. */
  predicate ProcOk(p: Proc) {
    p.cputicks >= 0 && p.tickets > 0
  }

  /** trace touches neither field of ProcOk. */
  lemma TraceKeepsProcOk(p: Proc, mask: int)
    ensures ProcOk(Trace(p, mask).proc) <==> ProcOk(p)
  {
  }

  /** set_priority's rewrite of a process touches neither field of ProcOk. */
  lemma ReprioritiseKeepsProcOk(p: Proc, priority: int)
    ensures ProcOk(Reprioritise(p, priority)) <==> ProcOk(p)
  {
  }

  /** sigalarm keeps ProcOk whether it refuses or accepts, since it refuses
      exactly the negative intervals. */
  lemma SigAlarmKeepsProcOk(p: Proc, cputicks: int, handler: nat)
    requires ProcOk(p)
    ensures ProcOk(SigAlarm(p, cputicks, handler).proc)
  {
  }

  /** settickets keeps ProcOk whether it refuses or accepts, since it refuses
      exactly the non-positive counts. */
  lemma SetTicketsKeepsProcOk(p: Proc, number: int)
    requires ProcOk(p)
    ensures ProcOk(SetTickets(p, number).proc)
  {
  }

  /** sigreturn copies the passed ticks into the interval unchecked, so it
      keeps ProcOk exactly when the passed ticks are not negative. */
  lemma SigReturnProcOk(p: Proc)
    requires ProcOk(p)
    ensures ProcOk(SigReturn(p).proc) <==> p.passedCputicks >= 0
  {
  }

  /** set_priority keeps ProcOk on every slot of the table. */
  lemma SetPriorityKeepsProcOk(procs: seq<Proc>, priority: int, pid: int)
    requires forall i :: 0 <= i < |procs| ==> ProcOk(procs[i])
    ensures forall i :: 0 <= i < |SetPriority(procs, priority, pid).table| ==>
              ProcOk(SetPriority(procs, priority, pid).table[i])
  {
  }

  /** The last trace mask set is the one in force. */
  lemma TraceLastWins(p: Proc, a: int, b: int)
    ensures Trace(Trace(p, a).proc, b) == Trace(p, b)
  {
  }

  /** The last accepted sigalarm is the one in force, and a refused one
      leaves no trace for the next call. */
  lemma SigAlarmLastWins(p: Proc, a: int, ha: nat, b: int, hb: nat)
    requires b >= 0
    ensures SigAlarm(SigAlarm(p, a, ha).proc, b, hb).proc == SigAlarm(p, b, hb).proc
  {
  }
}
